=== FILE: README.md ===
# Course / unit / page content API — a Dafny model

This project models the in-memory content logic of a file-backed GraphQL API
for an educational platform. Content is a hierarchy of courses, units and
pages. A course is one YAML document. Its `units` field is an ordered list of
units, and each unit holds an optional ordered list of page ids. Every page is
its own MDX file. A content index maps each id to its typename and file path.

The file system is a map from path to a parsed file (front matter plus body).
The index is a `map<string, Entry>`. Every resolver is a pure function from a
`Store` (index plus files) and its arguments to an `Outcome`: the new store
together with the value returned. Exceptions are `Failure` results;
`deletePage` and `deleteUnit` return `false` where the source catches them.

Modules, following the source files:

- `Wrappers` (`wrappers.dfy`): `Option` and `Result`.
- `Js` (`js.dfy`): the JavaScript behaviour the resolvers rely on. It covers
  `undefined` versus `null` (`Js<T>`), string truthiness for `a || b`, the
  string conversions of template literals and of lodash, the start index of
  `splice`, and `String.prototype.trim`.
- `Splice` (`splice.dfy`): `findIndex`, `splice(i, 0, x)` and `splice(i, 1)`
  on sequences, with their inverse and multiset lemmas.
- `Documents` (`documents.dfy`): course, unit, front-matter and input shapes,
  and the `id || kebabCase(title)` rule.
- `Content` (`content.dfy`): `src/utils/index.ts`, the reader, the writer,
  the path rule and the page-field check.
- `PageResolver`, `UnitResolver` and `CourseResolver`: the three resolver
  files.

`kebabCase` is passed to every operation as an uninterpreted parameter
`slug: string -> string`.

## Notable behaviour of the code

The model keeps each of these behaviours of the source:

- `savePage` does not move a page that is already in the unit. The lookup
  `unit.pages.findIndex((p) => p.id === id)` runs on a list of id strings, and
  a string has no `id` property, so it never matches. Re-saving a page
  therefore adds a second copy of its id. `PageResolver.PriorIndexNeverMatches`,
  `PageResolver.ResaveDuplicates` and `PageResolver.ResaveExample` state this.
- `deletePage` never removes the page's index entry. After a successful
  delete, the id still points at the unlinked file, so reading the page
  raises instead of returning null (`PageResolver.DeletePageLeavesDanglingEntry`).
- `deletePage` unlinks the file before it inspects the units. The file is
  therefore gone even when the call then fails because the course has no
  `units` field or the given unit id names no unit.
- `saveCourse` merges scalar fields by truthiness. An empty string keeps the
  stored value. Input units without a `pages` field are dropped from the new
  list.
- `savePage` and `saveUnit` raise a `TypeError` on a course document with no
  `units` field, such as a course created by `saveCourse` without units.
  `savePage` raises only after it has written the page file.

## Model

| member | source | states |
|---|---|---|
| `Js.Trim` | src/utils/index.ts:26 | the body with leading and trailing whitespace removed: a contiguous slice of the input, starting after its leading whitespace, with no whitespace at either end, everything after it whitespace, and empty exactly when the input is all whitespace |
| `Js.TrimIdempotent` | src/utils/index.ts:26 | trimming an already trimmed body changes nothing |
| `Splice.FindIndex` | src/resolvers/unit.ts:36 | `findIndex` returns the first index whose element satisfies the predicate, or -1 when none does |
| `Splice.Insert` | src/resolvers/page.ts:48 | `splice(i, 0, x)` with i ≥ 0 puts x at index min(i, length) and grows the list by one; removing x again gives back the original list |
| `Splice.RemoveAt` | src/resolvers/unit.ts:56 | `splice(i, 1)` shortens the list by one, keeps the elements before i and shifts those after i down by one |
| `Splice.RemoveFirst` | src/resolvers/page.ts:85-89 | finding an element and splicing it out leaves the list unchanged when the element is absent; otherwise it removes exactly one copy |
| `Splice.RemoveFirstAt` | src/resolvers/page.ts:85-89 | the removed copy is the first occurrence |
| `Splice.InsertRemoveAt` | src/resolvers/unit.ts:55-59 | removing an element and re-inserting it at the same index restores the list |
| `Splice.RemoveFirstInsert` | src/resolvers/unit.ts:55-59 | removing the first copy of an element that was absent before its insertion gives back the original list |
| `Splice.InsertMultiset` | src/resolvers/page.ts:48 | an insertion adds exactly one copy of the element and keeps every other element |
| `Documents.DefaultId` | src/resolvers/page.ts:25 | `id || kebabCase(title)`: a truthy id is kept whatever the title |
| `Documents.DefaultIdFallback` | src/resolvers/unit.ts:35 | without a truthy id, a missing, null or empty id all give the slug of the title, and a missing or null title is slugged as the empty string |
| `Content.GetSourceFile` | src/utils/index.ts:17-27 | null exactly when the id is not indexed or is indexed under another typename; raises only when the indexed file is missing; otherwise returns the file's front matter and its trimmed body as `content` |
| `Content.WriteSourceFile` | src/utils/index.ts:29-49 | after a write, the id's index entry holds the written typename and the path. The path is `content/{id}/course.yaml` for a course and `content/{parentId}/pages/{id}.mdx` for any other type; a missing parent is rendered as `undefined` or `null`. The file holds the front matter and the body, and a null, undefined or empty content gives an empty body. Every other index entry and every other file is unchanged |
| `Content.WriteThenRead` | src/utils/index.ts:17-48 | in the model's file map, a write followed by a read of the same id and typename returns the written front matter and trimmed body, so it is never null |
| `Content.ReadCourseAfterWrite` | src/utils/index.ts:38-48 | in the model's file map, reading back a course document just written returns exactly that course |
| `Content.WritePreservesConsistent` | src/utils/index.ts:44-48 | a write never leaves an index entry pointing at a missing file |
| `Content.ConsistentReadSucceeds` | src/utils/index.ts:21-23 | when every index entry points at an existing file, the reader never raises |
| `Content.CoursePathInjective` | src/utils/index.ts:39 | two different course ids never give the same course path string |
| `Content.PagePathInjective` | src/utils/index.ts:41 | two different page ids under the same parent never give the same page path string |
| `Content.CoursePathIsNotPagePath` | src/utils/index.ts:37-42 | a course file and a page file never share a path |
| `Content.HasValidPageFields` | src/utils/index.ts:58-65 | a page is valid exactly when none of id, title, content and pageOrder is undefined; null counts as present |
| `Content.NullCountsAsPresent` | src/utils/index.ts:58-65 | `hasValidPageFields` accepts null fields and rejects a page whose content is undefined |
| `PageResolver.PriorIndexNeverMatches` | src/resolvers/page.ts:44 | the prior-occurrence lookup over page-id strings is -1 for every list and every id |
| `PageResolver.InsertPage` | src/resolvers/page.ts:41-48 | a missing or empty page list becomes exactly [id] whatever `pageOrder` is; otherwise id lands at min(pageOrder, length), the list grows by one, and removing id there gives back the old list |
| `PageResolver.TargetCourse` | src/resolvers/page.ts:18 | the course is the first truthy one of the parent's course id and the argument's, else `input.courseId` as it is; the result is truthy exactly when one of the three is |
| `PageResolver.TargetUnit` | src/resolvers/page.ts:19 | the unit is chosen from the same three places in the same way |
| `PageResolver.AddPageToUnits` | src/resolvers/page.ts:39-52 | every unit whose id equals the unit id receives the insertion; all other units, and the order and ids of all units, are unchanged |
| `PageResolver.SavePage` | src/resolvers/page.ts:17-60 | a course lookup that raises is passed on; a course that is missing or has another type fails with "`{courseId}` not found" and nothing is written; otherwise the page file is written under `input.courseId` and indexed, with the given id or, when that is falsy, the slug of the title. A course with no units field then fails with a TypeError. Otherwise the stored course reads back with the page inserted into the target units, and the page is returned. Only the page's index entry and file, and the course's index entry and course file, can change; when the course has no units field, only the page's entry and file change |
| `PageResolver.ResaveDuplicates` | src/resolvers/page.ts:44-48 | saving a page into a non-empty list that already holds its id adds one more copy, so the id then occurs at least twice |
| `PageResolver.ResaveExample` | src/resolvers/page.ts:44-48 | re-saving "intro" at position 0 of ["intro"] gives ["intro", "intro"] |
| `PageResolver.DeleteAfterSave` | src/resolvers/page.ts:41-48 | deleting a page right after saving it into a unit restores a list that did not hold it exactly; a list that did hold it keeps the same multiset of ids |
| `PageResolver.RemovePage` | src/resolvers/page.ts:84-89 | a unit's page list loses one copy of the page id when it has one and is unchanged otherwise; a unit without a list keeps none |
| `PageResolver.RemoveFromNamedUnit` | src/resolvers/page.ts:75-81 | only the first unit with the given id loses its first occurrence of the page; every other unit is unchanged; the result is missing exactly when no unit has that id |
| `PageResolver.RemoveFromEveryUnit` | src/resolvers/page.ts:82-92 | every unit with a page list loses its first occurrence of the page, and units keep their order |
| `PageResolver.DeletePage` | src/resolvers/page.ts:62-101 | returns true exactly when the course exists, the page id is indexed, the course has units and a given unit id names a unit. Nothing changes when the course is missing or the page id is not indexed. Otherwise the page file is removed and other index entries are untouched. On false the course is not written and only the page file is gone. On true the course reads back with the page removed as described, and only the page file, the course file and the course's index entry can have changed |
| `PageResolver.DeletePageLeavesDanglingEntry` | src/resolvers/page.ts:71-73 | after a successful delete, the page id keeps its index entry while its file is gone, so reading it raises |
| `PageResolver.DeleteEverywhereClearsSingleReferences` | src/resolvers/page.ts:83-91 | deleting without a unit id removes the page from every unit that listed it at most once |
| `UnitResolver.ListUnits` | src/resolvers/unit.ts:12-15 | null exactly when the course is missing or has no units field; otherwise the unit ids in stored order |
| `UnitResolver.UnitPages` | src/resolvers/unit.ts:18-23 | undefined exactly when the unit has no page list; otherwise one page lookup per stored id, in order, with the same length |
| `UnitResolver.UnitPagesInConsistentStore` | src/resolvers/unit.ts:20-22 | in a consistent store each page lookup succeeds, and it is null exactly when the id is not indexed as a page |
| `UnitResolver.ChosenPages` | src/resolvers/unit.ts:37-52 | the saved unit's pages are the input page ids when given; otherwise the existing unit's list when the unit exists; otherwise the field is omitted |
| `UnitResolver.PlaceUnit` | src/resolvers/unit.ts:36-59 | the first unit with the same id is removed and the new unit sits at min(unitOrder, length); removing it gives back the remaining units in their old order; the length is unchanged for an existing unit and grows by one for a new one |
| `UnitResolver.SaveUnit` | src/resolvers/unit.ts:26-79 | a missing course fails with "`{courseId}` not found"; a course with no units field fails with a TypeError; in both cases nothing is written. Otherwise the stored course reads back with the unit placed, the result carries the unit id, the input title and the unit's resolved pages, and only the course's index entry and course file can have changed |
| `UnitResolver.PlaceUnitIds` | src/resolvers/unit.ts:55-59 | the new unit id list is the old one with the first occurrence of the id removed and the id spliced in at `unitOrder` |
| `UnitResolver.SaveUnitThenList` | src/resolvers/unit.ts:55-61 | saving a unit into a stored course that has a units field succeeds; `listUnits` then shows the unit's id spliced in at `unitOrder` into the old ids, minus their first occurrence of that id |
| `UnitResolver.PlaceUnitKeepsIdsDistinct` | src/resolvers/unit.ts:54-59 | saving a unit into a list with distinct ids keeps the ids distinct: a unit is moved, never duplicated |
| `UnitResolver.PlaceUnitAtFront` | src/resolvers/unit.ts:59 | a `unitOrder` of 0 puts the saved unit first, wherever it was before |
| `UnitResolver.DeleteUnit` | src/resolvers/unit.ts:80-98 | true exactly when the course exists, has units and one of them has the id; then the first such unit is removed and the course is written back, and nothing but the course's index entry and course file changes; otherwise false and nothing is written |
| `UnitResolver.DeleteUnitThenList` | src/resolvers/unit.ts:88-92 | deleting a unit that a stored course lists succeeds; `listUnits` then shows the old ids with the first occurrence of the unit id removed |
| `UnitResolver.DeleteUndoesSaveOfNewUnit` | src/resolvers/unit.ts:55-59 | deleting the first unit with the id of a unit just saved as new gives back the old unit list |
| `CourseResolver.ListCourses` | src/resolvers/course.ts:15-21 | exactly the indexed ids whose typename is course |
| `CourseResolver.ListCoursesAfterWrite` | src/resolvers/course.ts:17-19 | writing a course adds its id to the course list, and writing any other type under the same id removes it |
| `CourseResolver.WritableIffFieldsPresent` | src/resolvers/course.ts:47-48 | once its id is defaulted, a page is written exactly when its title, content and pageOrder are not undefined |
| `CourseResolver.StoredUnit` | src/resolvers/course.ts:68-77 | a stored unit's id is its id or the slug of its title. Its pages are the defaulted page ids, one per input page, valid or not. The pages field is omitted when the list is empty |
| `CourseResolver.BuildUnits` | src/resolvers/course.ts:39-78 | the new list is no longer than the input; when every input unit has pages it is exactly their stored forms in input order; no stored unit has an empty page list |
| `CourseResolver.BuildUnitsAppend` | src/resolvers/course.ts:41-44 | building the list unit by unit in input order: the result for a concatenation is the concatenation of the results |
| `CourseResolver.BuildUnitsSingle` | src/resolvers/course.ts:44 | a single input unit becomes its stored form when it has pages and nothing otherwise |
| `CourseResolver.DropsUnitsWithoutPages` | src/resolvers/course.ts:44 | appending an input unit without pages does not change the stored list |
| `CourseResolver.WritePage` | src/resolvers/course.ts:47-65 | a page with a defaulted id that passes the field check gets its file under the course, holding its id, title and content, and an index entry pointing at it, and nothing else changes; any other page changes nothing |
| `CourseResolver.WritePages` | src/resolvers/course.ts:45-66 | exactly the valid pages get an index entry pointing at `content/{courseId}/pages/{id}.mdx`, and that file exists. No other index entry is added or changed, and no file other than those page files is added or changed. What the files hold is stated by `CourseResolver.WritePagesContents` |
| `CourseResolver.LastWriter` | src/resolvers/course.ts:45-66 | for an id some valid page is written under, the position of the last such page: no later page is written under that id |
| `CourseResolver.WritePagesContents` | src/resolvers/course.ts:45-66 | after the page writes, the file of each written id holds the id, title and content of the last valid input page with that id, since later writes of a file overwrite earlier ones |
| `CourseResolver.PersistCourse` | src/resolvers/course.ts:41-84 | after the page writes and the course write, the course reads back as written and is listed. Every valid page other than the course itself is indexed under the course's pages directory, and every valid page's file exists. Only the course's and the valid pages' index entries, and the course file and those page files, can change; nothing else is added |
| `CourseResolver.SaveCourse` | src/resolvers/course.ts:24-86 | a failing lookup is passed on. Otherwise a missing course starts from an empty record. Each of title, version, subtitle and author takes the input when it is truthy and keeps the stored value otherwise. Units are kept when none are given and rebuilt when they are. The saved course reads back as returned and is listed, and the valid pages are indexed and their files exist. Only the course's and the valid pages' index entries, and the course file and those page files, can change |
| `CourseResolver.PersistCoursePageContents` | src/resolvers/course.ts:41-84 | after the page writes and the course write, each written page file holds the id, title and content of the last valid input page with that id; the course file is at another path |
| `CourseResolver.SaveCoursePageContents` | src/resolvers/course.ts:45-66 | after a successful saveCourse with units, each written page file under the course holds the id, title and content of the last valid input page with that id |
| `CourseResolver.TitleOnlyKeepsOtherFields` | src/resolvers/course.ts:25-39 | an input with only a title returns the stored course with only its id and title replaced: version, subtitle, author and units are kept |
| `CourseResolver.EmptyStringKeepsField` | src/resolvers/course.ts:36 | an empty-string version does not overwrite the stored version |
| `CourseResolver.NewCourseExample` | src/resolvers/course.ts:26-33 | saving `{title: "New Testament"}` for a new course gives id "new-testament" and no units field, and lists the course |

## Left out

- File I/O (`fs.readFile`, `writeFile`, `mkdir`, `unlink`) is replaced by the map of files. `setupCourseDirs` is not modelled, and neither is directory existence, so every write succeeds. In the source, writing into a missing directory fails.
- Files keep the header exactly as written: the model stores the parsed front matter, so a write followed by a read is taken to give it back unchanged (gray-matter's `matter.stringify` then `matter`). Real YAML serialisation may fail or alter values, for example on fields left `undefined`; every "reads back" clause of the resolvers rests on this.
- gray-matter parsing and serialisation are abstract. Front matter is typed as either a course or a page header. The `type` fields, and a `content` field inside the front matter, have no counterpart. The reader's `content` is always the trimmed body.
- lodash `kebabCase` is the uninterpreted parameter `slug`.
- The page writes in `saveCourse` are not awaited (src/resolvers/course.ts:41-67), and neither is `fs.unlink` in `deletePage` (src/resolvers/page.ts:73). The model runs them in program order and ignores their timing and failures.
- Negative `pageOrder` and `unitOrder`, which `splice` counts from the end, are not modelled; both are `Js<nat>`.
- `listCourses` returns a set. The index is a map, so the insertion order of object keys is not modelled.
- The `course(id)` and `page(id)` queries are direct calls of the reader (`Content.GetSourceFile` with typename course or page).
- `saveUnit` input pages are modelled as references with a string id. A page entry without an id, which the source would store as undefined, is not modelled.
- Stored unit ids are strings. A stored `pages: null` is treated like an absent field; the source would raise on its `length` in `savePage`.
- Index keys inherited from the JavaScript object prototype (`constructor`, `__proto__`) are not modelled.
- `Unit.pages` returns a list of promises. A rejected element is modelled as a `Failure` element.
- PersistCourse: its own contract states the page files' existence and the frame, not what the page files hold; the lemma `CourseResolver.PersistCoursePageContents` states that for each written id.
- SaveCourse: its own contract states the page files' existence and the frame, not what the page files hold; the lemma `CourseResolver.SaveCoursePageContents` states that for each written id.
- WritePages: its own contract states the index entries, the existence of the page files and the frame, not what the page files hold; the lemma `CourseResolver.WritePagesContents` states that for each written id.
- Paths are plain strings. `path.join` in the source normalises `.` and `..` segments, so ids containing `/`, `.` or `..` segments can share a file there (a course id `a/../b` writes `content/b/course.yaml`). The path rules and their injectivity lemmas are about the unnormalised strings.
- pkg/main.go, lib/api.js, src/getSchema.ts, src/index.ts and build.js are not part of this model. They cover building the index by a concurrent file scan, running that helper as a child process, and the HTTP server.
- Console logging.

=== FILE: content.dfy ===
/**
 * The content index and the source-file reader and writer
 * (src/utils/index.ts).
 *
 * The index maps a content id to its typename and file path. The file
 * system is a map from path to a parsed file: its front matter and its body.
 */
module Content {
  import opened Wrappers
  import opened Js
  import opened Documents

  /** TYPENAMES: the typenames stored in the index. */
  const COURSE: string := "course"
  const UNIT: string := "unit"
  const PAGE: string := "page"

  datatype Entry = Entry(typename: string, filepath: string)

  type Index = map<string, Entry>

  datatype SourceFile = SourceFile(data: FrontMatter, body: string)

  /** The in-memory index together with the content files it points into. */
  datatype Store = Store(index: Index, files: map<string, SourceFile>)

  /** What the reader returns: the front matter plus the trimmed body as `content`. */
  datatype Record = Record(data: FrontMatter, content: string)

  /** Exceptions a resolver can raise. */
  datatype Error =
    | NotFound(id: string)      // `${courseId} not found`
    | ReadFailed(path: string)  // the indexed file is missing on disk
    | TypeError                 // a property read on undefined

  /** A resolver's effect on the store together with what it returns. */
  datatype Outcome<+T> = Outcome(store: Store, result: T)

  /** Every index entry points at a file that exists. */
  ghost predicate Consistent(st: Store) {
    forall id :: id in st.index ==> st.index[id].filepath in st.files
  }

  /**
   * getSourceFile: null when the id is not indexed or is indexed under
   * another typename; otherwise the file's front matter and trimmed body.
   * Reading a file that is gone raises.
   */
  function GetSourceFile(st: Store, id: string, typename: string): (r: Result<Option<Record>, Error>)
    ensures r == Success(None) <==> id !in st.index || st.index[id].typename != typename
    ensures r.Failure? <==>
      id in st.index && st.index[id].typename == typename && st.index[id].filepath !in st.files
    ensures r.Failure? ==> r.error == ReadFailed(st.index[id].filepath)
    ensures r.Success? && r.value.Some? ==>
      var f := st.files[st.index[id].filepath];
      r.value.value.data == f.data && r.value.value.content == Trim(f.body)
  {
    if id !in st.index || st.index[id].typename != typename then Success(None)
    else
      var path := st.index[id].filepath;
      if path !in st.files then Failure(ReadFailed(path))
      else Success(Some(Record(st.files[path].data, Trim(st.files[path].body))))
  }

  function CoursePath(id: string): string {
    "content/" + id + "/course.yaml"
  }

  function PagePath(parentId: string, id: string): string {
    "content/" + parentId + "/pages/" + id + ".mdx"
  }

  /** The path rule of writeSourceFile: courses by their own id, everything else under the parent's pages. */
  function FilePath(id: string, filetype: string, parentId: Js<string>): string {
    if filetype == COURSE then CoursePath(id) else PagePath(Render(parentId), id)
  }

  /** `content ? content : ''`: a missing or empty content is an empty body. */
  function Body(content: Js<string>): (b: string)
    ensures b == "" <==> !Truthy(content)
    ensures b != "" ==> content == Defined(b)
  {
    if Truthy(content) then content.value else ""
  }

  /**
   * writeSourceFile: overwrite the file at the path the rule picks and point
   * the id's index entry at it. Nothing else changes.
   */
  function WriteSourceFile(st: Store, id: string, filetype: string, frontMatter: FrontMatter,
                           content: Js<string>, parentId: Js<string>): (r: Store)
    ensures id in r.index && r.index[id] == Entry(filetype, FilePath(id, filetype, parentId))
    ensures filetype == COURSE ==> r.index[id].filepath == CoursePath(id)
    ensures filetype != COURSE ==> r.index[id].filepath == PagePath(Render(parentId), id)
    ensures r.index.Keys == st.index.Keys + {id}
    ensures forall k :: k in st.index && k != id ==> r.index[k] == st.index[k]
    ensures r.files.Keys == st.files.Keys + {FilePath(id, filetype, parentId)}
    ensures r.files[FilePath(id, filetype, parentId)] == SourceFile(frontMatter, Body(content))
    ensures forall p :: p in st.files && p != FilePath(id, filetype, parentId) ==> r.files[p] == st.files[p]
    ensures !Truthy(content) ==> r.files[FilePath(id, filetype, parentId)].body == ""
  {
    var path := FilePath(id, filetype, parentId);
    Store(st.index[id := Entry(filetype, path)], st.files[path := SourceFile(frontMatter, Body(content))])
  }

  /**
   * Between st and r nothing outside the ids `ids` and the paths `paths`
   * changed: no index entry or file outside them was added, altered or
   * removed.
   */
  predicate FramedBy(st: Store, r: Store, ids: set<string>, paths: set<string>) {
    && r.index.Keys <= st.index.Keys + ids
    && (forall k :: k in st.index && k !in ids ==> k in r.index && r.index[k] == st.index[k])
    && r.files.Keys <= st.files.Keys + paths
    && (forall p :: p in st.files && p !in paths ==> p in r.files && r.files[p] == st.files[p])
  }

  /** Two steps framed by some ids and paths are framed together by their unions. */
  lemma FramedByTrans(a: Store, b: Store, c: Store, ids1: set<string>, paths1: set<string>,
                      ids2: set<string>, paths2: set<string>)
    requires FramedBy(a, b, ids1, paths1) && FramedBy(b, c, ids2, paths2)
    ensures FramedBy(a, c, ids1 + ids2, paths1 + paths2)
  {
  }

  /** The page files of the given ids under one parent. */
  function PagePaths(parentId: string, ids: set<string>): (r: set<string>)
    ensures forall k :: k in ids ==> PagePath(parentId, k) in r
    ensures forall p :: p in r ==> exists k :: k in ids && p == PagePath(parentId, k)
  {
    set k | k in ids :: PagePath(parentId, k)
  }

  /** hasValidPageFields: id, title, content and pageOrder are all not undefined. */
  predicate HasValidPageFields(p: PageInput) {
    Present(p.id) && Present(p.title) && Present(p.content) && Present(p.pageOrder)
  }

  /** A course lookup, with the header read as a course. */
  function ReadCourse(st: Store, id: string): (r: Result<Option<Course>, Error>)
    ensures r.Success? <==> GetSourceFile(st, id, COURSE).Success?
    ensures r == Success(None) <==> GetSourceFile(st, id, COURSE) == Success(None)
  {
    match GetSourceFile(st, id, COURSE)
    case Failure(e) => Failure(e)
    case Success(None) => Success(None)
    case Success(Some(rec)) => Success(Some(AsCourse(rec.data)))
  }

  /** The index lists id as a course whose file holds the course c. */
  predicate HoldsCourse(st: Store, id: string, c: Course) {
    && id in st.index
    && st.index[id].typename == COURSE
    && st.index[id].filepath in st.files
    && st.files[st.index[id].filepath].data == CourseMatter(c)
  }

  lemma ReadHeldCourse(st: Store, id: string, c: Course)
    requires HoldsCourse(st, id, c)
    ensures ReadCourse(st, id) == Success(Some(c))
  {
  }

  /** Persisting a course document, as every resolver does: `writeSourceFile(ctx, id, COURSE, course, null, null)`. */
  function WriteCourse(st: Store, id: string, c: Course): (r: Store)
    ensures r.index.Keys == st.index.Keys + {id}
    ensures forall k :: k in st.index && k != id ==> r.index[k] == st.index[k]
    ensures FramedBy(st, r, {id}, {CoursePath(id)})
  {
    WriteSourceFile(st, id, COURSE, CourseMatter(c), Null, Null)
  }

  // ----- properties of the reader and writer -----

  /** A write followed by a read of the same id and type finds what was written. */
  lemma WriteThenRead(st: Store, id: string, filetype: string, fm: FrontMatter, content: Js<string>, parentId: Js<string>)
    ensures GetSourceFile(WriteSourceFile(st, id, filetype, fm, content, parentId), id, filetype)
         == Success(Some(Record(fm, Trim(Body(content)))))
  {
  }

  /** Reading back a course just written returns exactly that course. */
  lemma ReadCourseAfterWrite(st: Store, id: string, c: Course)
    ensures ReadCourse(WriteCourse(st, id, c), id) == Success(Some(c))
  {
  }

  /** A write never makes the index point at a missing file. */
  lemma WritePreservesConsistent(st: Store, id: string, filetype: string, fm: FrontMatter, content: Js<string>, parentId: Js<string>)
    requires Consistent(st)
    ensures Consistent(WriteSourceFile(st, id, filetype, fm, content, parentId))
  {
  }

  /** In a consistent store the reader never raises. */
  lemma ConsistentReadSucceeds(st: Store, id: string, typename: string)
    requires Consistent(st)
    ensures GetSourceFile(st, id, typename).Success?
  {
  }

  /** Two courses with different ids never share a file. */
  lemma {:induction false} CoursePathInjective(a: string, b: string)
    requires CoursePath(a) == CoursePath(b)
    ensures a == b
  {
    var pa, pb := CoursePath(a), CoursePath(b);
    assert |a| == |b|;
    assert pa[8..8 + |a|] == a;
    assert pb[8..8 + |b|] == b;
  }

  /** Within one parent, two pages with different ids never share a file. */
  lemma {:induction false} PagePathInjective(parent: string, a: string, b: string)
    requires PagePath(parent, a) == PagePath(parent, b)
    ensures a == b
  {
    var pa, pb := PagePath(parent, a), PagePath(parent, b);
    var n := |"content/" + parent + "/pages/"|;
    assert |a| == |b|;
    assert pa[n..n + |a|] == a;
    assert pb[n..n + |b|] == b;
  }

  /** A course file (`.yaml`) and a page file (`.mdx`) never share a path. */
  lemma CoursePathIsNotPagePath(id: string, parent: string, page: string)
    ensures CoursePath(id) != PagePath(parent, page)
  {
    var c, p := CoursePath(id), PagePath(parent, page);
    assert c[|c| - 1] == 'l';
    assert p[|p| - 1] == 'x';
  }

  /** A null field passes the presence check; one undefined field fails it. */
  lemma NullCountsAsPresent(p: PageInput)
    ensures HasValidPageFields(p.(id := Null, title := Null, content := Null, pageOrder := Null))
    ensures !HasValidPageFields(p.(content := Undefined))
  {
  }
}

=== FILE: course_resolver.dfy ===
/**
 * The course resolvers (src/resolvers/course.ts): listing the indexed
 * courses, and `saveCourse`, which merges scalar fields into the stored
 * course and replaces its unit list wholesale.
 */
module CourseResolver {
  import opened Wrappers
  import opened Js
  import opened Documents
  import opened Content

  /** listCourses: exactly the indexed ids whose typename is course. */
  function ListCourses(st: Store): (r: set<string>)
    ensures forall k :: k in r <==> k in st.index && st.index[k].typename == COURSE
  {
    set k | k in st.index && st.index[k].typename == COURSE
  }

  /**
   * Ids are shared by all typenames: writing a course adds it to the list,
   * and writing anything else under the same id takes it off.
   */
  lemma ListCoursesAfterWrite(st: Store, id: string, filetype: string, fm: FrontMatter,
                              content: Js<string>, parentId: Js<string>)
    ensures ListCourses(WriteSourceFile(st, id, filetype, fm, content, parentId))
         == if filetype == COURSE then ListCourses(st) + {id} else ListCourses(st) - {id}
  {
  }

  /** A page of an input unit after `p.id = p.id || kebabCase(p.title)`. */
  function WithId(p: PageInput, slug: string -> string): PageInput {
    p.(id := Defined(DefaultId(p.id, p.title, slug)))
  }

  /** Whether saveCourse writes the page's file. */
  predicate Writable(p: PageInput, slug: string -> string) {
    HasValidPageFields(WithId(p, slug))
  }

  /** Once its id is defaulted, a page is written exactly when title, content and pageOrder are present. */
  lemma WritableIffFieldsPresent(p: PageInput, slug: string -> string)
    ensures Writable(p, slug) <==> Present(p.title) && Present(p.content) && Present(p.pageOrder)
  {
  }

  /**
   * The stored form of an input unit that has a pages list: its id defaulted,
   * its page ids (defaulted too, whether or not the page is valid), and no
   * pages field when the list is empty.
   */
  function StoredUnit(u: CourseUnitInput, slug: string -> string): (r: Unit)
    requires u.pages.Some?
    ensures r.id == DefaultId(u.id, u.title, slug) && r.title == u.title
    ensures r.pages.None? <==> u.pages.value == []
    ensures r.pages.Some? ==>
      && |r.pages.value| == |u.pages.value|
      && forall i :: 0 <= i < |r.pages.value| ==>
           r.pages.value[i] == DefaultId(u.pages.value[i].id, u.pages.value[i].title, slug)
  {
    var ps := u.pages.value;
    var ids := seq(|ps|, i requires 0 <= i < |ps| => DefaultId(ps[i].id, ps[i].title, slug));
    Unit(DefaultId(u.id, u.title, slug), u.title, if |ps| == 0 then None else Some(ids))
  }

  /** The new unit list: the input units that have a pages list, in input order, in stored form. */
  function BuildUnits(us: seq<CourseUnitInput>, slug: string -> string): (r: seq<Unit>)
    ensures |r| <= |us|
    ensures (forall i :: 0 <= i < |us| ==> us[i].pages.Some?) ==>
      |r| == |us| && forall i :: 0 <= i < |r| ==> r[i] == StoredUnit(us[i], slug)
    ensures forall i :: 0 <= i < |r| ==> r[i].pages.None? || r[i].pages.value != []
  {
    if |us| == 0 then []
    else (if us[0].pages.Some? then [StoredUnit(us[0], slug)] else []) + BuildUnits(us[1..], slug)
  }

  /** Building distributes over concatenation of the input. */
  lemma {:induction false} BuildUnitsAppend(a: seq<CourseUnitInput>, b: seq<CourseUnitInput>, slug: string -> string)
    ensures BuildUnits(a + b, slug) == BuildUnits(a, slug) + BuildUnits(b, slug)
  {
    if |a| == 0 {
      assert a + b == b;
    } else {
      assert (a + b)[0] == a[0];
      assert (a + b)[1..] == a[1..] + b;
      BuildUnitsAppend(a[1..], b, slug);
    }
  }

  /** A unit without a pages list is dropped; one with a list is kept. */
  lemma BuildUnitsSingle(u: CourseUnitInput, slug: string -> string)
    ensures BuildUnits([u], slug) == if u.pages.Some? then [StoredUnit(u, slug)] else []
  {
  }

  /** Adding a unit without pages to the input leaves the stored list unchanged. */
  lemma DropsUnitsWithoutPages(us: seq<CourseUnitInput>, u: CourseUnitInput, slug: string -> string)
    requires u.pages.None?
    ensures BuildUnits(us + [u], slug) == BuildUnits(us, slug)
  {
    BuildUnitsAppend(us, [u], slug);
    BuildUnitsSingle(u, slug);
  }

  /** All pages of the input units that have a pages list, in order. */
  function PagesOf(us: seq<CourseUnitInput>): (r: seq<PageInput>)
    ensures forall i, j :: 0 <= i < |us| && us[i].pages.Some? && 0 <= j < |us[i].pages.value| ==>
      us[i].pages.value[j] in r
  {
    if |us| == 0 then []
    else (if us[0].pages.Some? then us[0].pages.value else []) + PagesOf(us[1..])
  }

  /** The ids of the pages that get written. */
  function WrittenIds(ps: seq<PageInput>, slug: string -> string): set<string> {
    set i | 0 <= i < |ps| && Writable(ps[i], slug) :: DefaultId(ps[i].id, ps[i].title, slug)
  }

  /**
   * Write one page of the input when it passes the field check: its file
   * under the course, holding its id, title and content, and its index
   * entry. A page that fails the check changes nothing.
   */
  function WritePage(st: Store, p: PageInput, courseId: string, slug: string -> string): (r: Store)
    ensures Writable(p, slug) ==>
      var id := DefaultId(p.id, p.title, slug);
      var path := PagePath(courseId, id);
      && id in r.index && r.index[id] == Entry(PAGE, path)
      && path in r.files && r.files[path] == SourceFile(PageMatter(id, p.title), Body(p.content))
      && FramedBy(st, r, {id}, {path})
    ensures !Writable(p, slug) ==> r == st
  {
    if Writable(p, slug) then
      var id := DefaultId(p.id, p.title, slug);
      WriteSourceFile(st, id, PAGE, PageMatter(id, p.title), p.content, Defined(courseId))
    else st
  }

  lemma WrittenIdsCons(ps: seq<PageInput>, slug: string -> string)
    requires |ps| > 0
    ensures WrittenIds(ps, slug)
         == (if Writable(ps[0], slug) then {DefaultId(ps[0].id, ps[0].title, slug)} else {}) + WrittenIds(ps[1..], slug)
  {
    var h := if Writable(ps[0], slug) then {DefaultId(ps[0].id, ps[0].title, slug)} else {};
    forall k | k in WrittenIds(ps, slug)
      ensures k in h + WrittenIds(ps[1..], slug)
    {
      var i :| 0 <= i < |ps| && Writable(ps[i], slug) && k == DefaultId(ps[i].id, ps[i].title, slug);
      if i > 0 {
        assert ps[1..][i - 1] == ps[i];
      }
    }
    forall k | k in WrittenIds(ps[1..], slug)
      ensures k in WrittenIds(ps, slug)
    {
      var i :| 0 <= i < |ps[1..]| && Writable(ps[1..][i], slug) && k == DefaultId(ps[1..][i].id, ps[1..][i].title, slug);
      assert ps[i + 1] == ps[1..][i];
    }
  }

  /** The file a valid page of the input is written as. */
  function PageFile(p: PageInput, slug: string -> string): SourceFile {
    SourceFile(PageMatter(DefaultId(p.id, p.title, slug), p.title), Body(p.content))
  }

  /** The page passes the field check and is written under the id k. */
  predicate WrittenAs(p: PageInput, k: string, slug: string -> string) {
    Writable(p, slug) && DefaultId(p.id, p.title, slug) == k
  }

  /**
   * What the page writes of saveCourse leave behind: exactly the valid pages
   * get an index entry pointing at their file under the course, and that
   * file exists. No other index entry and no other file changes.
   */
  predicate PagesWritten(st: Store, r: Store, ps: seq<PageInput>, courseId: string, slug: string -> string) {
    && r.index.Keys == st.index.Keys + WrittenIds(ps, slug)
    && (forall k :: k in WrittenIds(ps, slug) ==>
          k in r.index && r.index[k] == Entry(PAGE, PagePath(courseId, k)) && PagePath(courseId, k) in r.files)
    && FramedBy(st, r, WrittenIds(ps, slug), PagePaths(courseId, WrittenIds(ps, slug)))
  }

  /** The page writes of saveCourse, one after another. */
  function WritePages(st: Store, ps: seq<PageInput>, courseId: string, slug: string -> string): (r: Store)
    ensures PagesWritten(st, r, ps, courseId, slug)
    decreases |ps|
  {
    if |ps| == 0 then st
    else
      var first := WritePage(st, ps[0], courseId, slug);
      var r := WritePages(first, ps[1..], courseId, slug);
      WritePagesStep(st, first, r, ps, courseId, slug);
      r
  }

  /** One page write followed by the writes of the rest is the writes of the whole list. */
  lemma WritePagesStep(st: Store, first: Store, r: Store, ps: seq<PageInput>, courseId: string, slug: string -> string)
    requires |ps| > 0
    requires first == WritePage(st, ps[0], courseId, slug)
    requires PagesWritten(first, r, ps[1..], courseId, slug)
    ensures PagesWritten(st, r, ps, courseId, slug)
  {
    WrittenIdsCons(ps, slug);
    var head := if Writable(ps[0], slug) then {DefaultId(ps[0].id, ps[0].title, slug)} else {};
    var tail := WrittenIds(ps[1..], slug);
    assert FramedBy(st, first, head, PagePaths(courseId, head));
    StepFrame(st, first, r, courseId, head, tail);
    StepEntries(st, first, r, courseId, head, tail);
  }

  /** The frames of two consecutive page writes combine into the frame of both. */
  lemma StepFrame(st: Store, first: Store, r: Store, courseId: string, head: set<string>, tail: set<string>)
    requires FramedBy(st, first, head, PagePaths(courseId, head))
    requires FramedBy(first, r, tail, PagePaths(courseId, tail))
    ensures FramedBy(st, r, head + tail, PagePaths(courseId, head + tail))
  {
    FramedByTrans(st, first, r, head, PagePaths(courseId, head), tail, PagePaths(courseId, tail));
    PagePathsUnion(courseId, head, tail);
  }

  /** An entry written first survives later page writes of other ids. */
  lemma StepEntries(st: Store, first: Store, r: Store, courseId: string, head: set<string>, tail: set<string>)
    requires forall k :: k in head ==>
      k in first.index && first.index[k] == Entry(PAGE, PagePath(courseId, k)) && PagePath(courseId, k) in first.files
    requires forall k :: k in tail ==>
      k in r.index && r.index[k] == Entry(PAGE, PagePath(courseId, k)) && PagePath(courseId, k) in r.files
    requires FramedBy(first, r, tail, PagePaths(courseId, tail))
    ensures forall k :: k in head + tail ==>
      k in r.index && r.index[k] == Entry(PAGE, PagePath(courseId, k)) && PagePath(courseId, k) in r.files
  {
    forall k | k in head && k !in tail
      ensures k in r.index && r.index[k] == Entry(PAGE, PagePath(courseId, k)) && PagePath(courseId, k) in r.files
    {
      PagePathOutside(courseId, k, tail);
    }
  }

  lemma PagePathsUnion(parentId: string, a: set<string>, b: set<string>)
    ensures PagePaths(parentId, a + b) == PagePaths(parentId, a) + PagePaths(parentId, b)
  {
  }

  /** The file of an id outside a set of page ids is not among their files. */
  lemma PagePathOutside(parentId: string, k: string, ids: set<string>)
    requires k !in ids
    ensures PagePath(parentId, k) !in PagePaths(parentId, ids)
  {
    if PagePath(parentId, k) in PagePaths(parentId, ids) {
      var j :| j in ids && PagePath(parentId, k) == PagePath(parentId, j);
      PagePathInjective(parentId, k, j);
    }
  }

  /** The position of the last valid page of ps written under the id k. */
  function LastWriter(ps: seq<PageInput>, k: string, slug: string -> string): (i: nat)
    requires k in WrittenIds(ps, slug)
    ensures i < |ps| && WrittenAs(ps[i], k, slug)
    ensures forall j :: i < j < |ps| ==> !WrittenAs(ps[j], k, slug)
    decreases |ps|
  {
    WrittenIdsCons(ps, slug);
    if k in WrittenIds(ps[1..], slug) then
      var i := 1 + LastWriter(ps[1..], k, slug);
      assert ps[i] == ps[1..][i - 1];
      assert forall j :: i < j < |ps| ==> ps[j] == ps[1..][j - 1];
      i
    else
      assert forall j :: 0 < j < |ps| ==> ps[j] == ps[1..][j - 1];
      0
  }

  /**
   * After the page writes, the file of each written id holds the header and
   * body of the last valid page with that id: later writes of the same file
   * overwrite earlier ones.
   */
  lemma {:induction false} WritePagesContents(st: Store, ps: seq<PageInput>, courseId: string, slug: string -> string, k: string)
    requires k in WrittenIds(ps, slug)
    ensures var r := WritePages(st, ps, courseId, slug);
      PagePath(courseId, k) in r.files && r.files[PagePath(courseId, k)] == PageFile(ps[LastWriter(ps, k, slug)], slug)
    decreases |ps|
  {
    WrittenIdsCons(ps, slug);
    var first := WritePage(st, ps[0], courseId, slug);
    var r := WritePages(first, ps[1..], courseId, slug);
    assert WritePages(st, ps, courseId, slug) == r;
    if k in WrittenIds(ps[1..], slug) {
      WritePagesContents(first, ps[1..], courseId, slug, k);
      assert ps[LastWriter(ps, k, slug)] == ps[1..][LastWriter(ps[1..], k, slug)];
    } else {
      HeadPageSurvives(first, r, ps[0], ps[1..], st, courseId, slug, k);
    }
  }

  /** A page written first keeps its file when the later writes are of other ids. */
  lemma HeadPageSurvives(first: Store, r: Store, p: PageInput, rest: seq<PageInput>, st: Store,
                         courseId: string, slug: string -> string, k: string)
    requires first == WritePage(st, p, courseId, slug)
    requires WrittenAs(p, k, slug)
    requires k !in WrittenIds(rest, slug)
    requires PagesWritten(first, r, rest, courseId, slug)
    ensures PagePath(courseId, k) in r.files && r.files[PagePath(courseId, k)] == PageFile(p, slug)
  {
    PagePathOutside(courseId, k, WrittenIds(rest, slug));
  }

  /** The files saveCourse writes: the course file and the files of the valid pages under the course. */
  function TouchedPaths(units: Option<seq<CourseUnitInput>>, courseId: string, slug: string -> string): set<string> {
    {CoursePath(courseId)} + if units.Some? then PagePaths(courseId, WrittenIds(PagesOf(units.value), slug)) else {}
  }

  /** The ids saveCourse writes: the course's own and those of the valid pages of the input units. */
  function TouchedIds(units: Option<seq<CourseUnitInput>>, courseId: string, slug: string -> string): set<string> {
    {courseId} + if units.Some? then WrittenIds(PagesOf(units.value), slug) else {}
  }

  /** The writes of saveCourse: the valid pages of the input units, if any, then the course document. */
  function PersistCourse(st: Store, units: Option<seq<CourseUnitInput>>, courseId: string, course: Course,
                         slug: string -> string): (r: Store)
    ensures ReadCourse(r, courseId) == Success(Some(course))
    ensures courseId in ListCourses(r)
    ensures units.Some? ==>
      forall k :: k in WrittenIds(PagesOf(units.value), slug) && k != courseId ==>
        k in r.index && r.index[k] == Entry(PAGE, PagePath(courseId, k))
    ensures units.Some? ==>
      forall k :: k in WrittenIds(PagesOf(units.value), slug) ==> PagePath(courseId, k) in r.files
    ensures FramedBy(st, r, TouchedIds(units, courseId, slug), TouchedPaths(units, courseId, slug))
  {
    var written := if units.Some? then WrittenIds(PagesOf(units.value), slug) else {};
    var pagesWritten := if units.Some? then WritePages(st, PagesOf(units.value), courseId, slug) else st;
    assert FramedBy(st, pagesWritten, written, PagePaths(courseId, written));
    ReadCourseAfterWrite(pagesWritten, courseId, course);
    var r := WriteCourse(pagesWritten, courseId, course);
    FramedByTrans(st, pagesWritten, r, written, PagePaths(courseId, written), {courseId}, {CoursePath(courseId)});
    assert TouchedIds(units, courseId, slug) == written + {courseId};
    assert TouchedPaths(units, courseId, slug) == PagePaths(courseId, written) + {CoursePath(courseId)};
    forall k | k in written
      ensures PagePath(courseId, k) in r.files
    {
      CoursePathIsNotPagePath(courseId, courseId, k);
    }
    r
  }

  /**
   * saveCourse. The course id is the input id or the slug of the title; a
   * missing course starts from `{}`. Each scalar field takes the input value
   * when it is truthy and keeps the stored one otherwise. When units are
   * given they replace the stored list and their valid pages are written.
   * The course document is written last.
   */
  function SaveCourse(st: Store, input: CourseInput, slug: string -> string): (o: Outcome<Result<Course, Error>>)
    ensures var rc := ReadCourse(st, DefaultId(input.id, input.title, slug));
      rc.Failure? ==> o == Outcome(st, Failure(rc.error))
    ensures var courseId := DefaultId(input.id, input.title, slug);
      var rc := ReadCourse(st, courseId);
      rc.Success? ==>
        var prior := if rc.value.Some? then rc.value.value else EmptyCourse;
        && o.result.Success?
        && var c := o.result.value;
           && c.id == Or(Defined(courseId), prior.id)
           && c.title == Or(input.title, prior.title)
           && c.version == Or(input.version, prior.version)
           && c.subtitle == Or(input.subtitle, prior.subtitle)
           && c.author == Or(input.author, prior.author)
           && (input.units.None? ==> c.units == prior.units)
           && (input.units.Some? ==> c.units == Some(BuildUnits(input.units.value, slug)))
           && ReadCourse(o.store, courseId) == Success(Some(c))
           && courseId in ListCourses(o.store)
    ensures var courseId := DefaultId(input.id, input.title, slug);
      ReadCourse(st, courseId).Success? && input.units.Some? ==>
        forall k :: k in WrittenIds(PagesOf(input.units.value), slug) && k != courseId ==>
          k in o.store.index && o.store.index[k] == Entry(PAGE, PagePath(courseId, k))
    ensures var courseId := DefaultId(input.id, input.title, slug);
      ReadCourse(st, courseId).Success? && input.units.Some? ==>
        forall k :: k in WrittenIds(PagesOf(input.units.value), slug) ==> PagePath(courseId, k) in o.store.files
    ensures var courseId := DefaultId(input.id, input.title, slug);
      FramedBy(st, o.store, TouchedIds(input.units, courseId, slug), TouchedPaths(input.units, courseId, slug))
  {
    var courseId := DefaultId(input.id, input.title, slug);
    match ReadCourse(st, courseId)
    case Failure(e) => Outcome(st, Failure(e))
    case Success(found) =>
      var prior := if found.Some? then found.value else EmptyCourse;
      var course := Course(
        Or(Defined(courseId), prior.id),
        Or(input.title, prior.title),
        Or(input.version, prior.version),
        Or(input.subtitle, prior.subtitle),
        Or(input.author, prior.author),
        if input.units.Some? then Some(BuildUnits(input.units.value, slug)) else prior.units);
      Outcome(PersistCourse(st, input.units, courseId, course, slug), Success(course))
  }

  /**
   * After saveCourse, the file of each page written under an id holds the
   * header and body of the last valid input page with that id: the course
   * document is written to a different path.
   */
  lemma PersistCoursePageContents(st: Store, units: Option<seq<CourseUnitInput>>, courseId: string, course: Course,
                                  slug: string -> string, k: string)
    requires units.Some? && k in WrittenIds(PagesOf(units.value), slug)
    ensures var ps := PagesOf(units.value);
      var r := PersistCourse(st, units, courseId, course, slug);
      PagePath(courseId, k) in r.files && r.files[PagePath(courseId, k)] == PageFile(ps[LastWriter(ps, k, slug)], slug)
  {
    WritePagesContents(st, PagesOf(units.value), courseId, slug, k);
    CoursePathIsNotPagePath(courseId, courseId, k);
  }

  /** The page files saveCourse writes hold the last valid input page of each id. */
  lemma SaveCoursePageContents(st: Store, input: CourseInput, slug: string -> string, k: string)
    requires input.units.Some?
    requires ReadCourse(st, DefaultId(input.id, input.title, slug)).Success?
    requires k in WrittenIds(PagesOf(input.units.value), slug)
    ensures var courseId := DefaultId(input.id, input.title, slug);
      var ps := PagesOf(input.units.value);
      var r := SaveCourse(st, input, slug).store;
      PagePath(courseId, k) in r.files && r.files[PagePath(courseId, k)] == PageFile(ps[LastWriter(ps, k, slug)], slug)
  {
    var courseId := DefaultId(input.id, input.title, slug);
    var found := ReadCourse(st, courseId).value;
    var prior := if found.Some? then found.value else EmptyCourse;
    var course := Course(
      Or(Defined(courseId), prior.id),
      Or(input.title, prior.title),
      Or(input.version, prior.version),
      Or(input.subtitle, prior.subtitle),
      Or(input.author, prior.author),
      Some(BuildUnits(input.units.value, slug)));
    assert SaveCourse(st, input, slug).store == PersistCourse(st, input.units, courseId, course, slug);
    PersistCoursePageContents(st, input.units, courseId, course, slug, k);
  }

  /** A title-only input keeps the stored version, subtitle, author and units. */
  lemma TitleOnlyKeepsOtherFields(st: Store, c: Course, title: string, slug: string -> string)
    requires HoldsCourse(st, slug(title), c)
    ensures var input := CourseInput(Undefined, Defined(title), Undefined, Undefined, Undefined, None);
      var o := SaveCourse(st, input, slug);
      && o.result.Success?
      && o.result.value == c.(id := Or(Defined(slug(title)), c.id), title := Or(Defined(title), c.title))
  {
    ReadHeldCourse(st, slug(title), c);
  }

  /** An empty string does not overwrite a stored field. */
  lemma EmptyStringKeepsField(st: Store, input: CourseInput, slug: string -> string)
    requires input.version == Defined("")
    requires ReadCourse(st, DefaultId(input.id, input.title, slug)).Success?
    requires ReadCourse(st, DefaultId(input.id, input.title, slug)).value.Some?
    ensures SaveCourse(st, input, slug).result.value.version
         == ReadCourse(st, DefaultId(input.id, input.title, slug)).value.value.version
  {
  }

  /**
   * Creating "New Testament" with no id: the id is the slug, the new course
   * has no units field, and it is listed.
   */
  lemma NewCourseExample(st: Store, slug: string -> string)
    requires slug("New Testament") == "new-testament"
    requires "new-testament" !in st.index
    ensures var o := SaveCourse(st, CourseInput(Undefined, Defined("New Testament"), Undefined, Undefined, Undefined, None), slug);
      && o.result.Success?
      && o.result.value.id == Defined("new-testament")
      && o.result.value.title == Defined("New Testament")
      && o.result.value.units.None?
      && "new-testament" in ListCourses(o.store)
  {
  }
}

=== FILE: documents.dfy ===
/**
 * The shapes of the content documents and of the mutation inputs.
 *
 * A course document holds an ordered list of units; a unit holds an
 * optional ordered list of page ids. Pages are separate files whose front
 * matter is their id and title.
 */
module Documents {
  import opened Wrappers
  import opened Js

  /** A unit inside a course document; `pages` is None when the field is omitted. */
  datatype Unit = Unit(id: string, title: Js<string>, pages: Option<seq<string>>)

  /** The front matter of a course file; `units` is None when the field is omitted. */
  datatype Course = Course(
    id: Js<string>,
    title: Js<string>,
    version: Js<string>,
    subtitle: Js<string>,
    author: Js<string>,
    units: Option<seq<Unit>>)

  /** The course a missing course file starts from: `{}`. */
  const EmptyCourse := Course(Undefined, Undefined, Undefined, Undefined, Undefined, None)

  /** The parsed header of a content file. */
  datatype FrontMatter =
    | CourseMatter(course: Course)
    | PageMatter(id: string, title: Js<string>)

  /**
   * A header read as a course. A page header has none of the course fields
   * except id and title, so it reads as a course with no units.
   */
  function AsCourse(fm: FrontMatter): (c: Course)
    ensures fm.CourseMatter? ==> CourseMatter(c) == fm
    ensures c.units.Some? ==> fm.CourseMatter?
    ensures fm.PageMatter? ==> PageMatter(fm.id, c.title) == fm
  {
    match fm
    case CourseMatter(c) => c
    case PageMatter(id, title) => Course(Defined(id), title, Undefined, Undefined, Undefined, None)
  }

  /** `id || kebabCase(title)`: the id when truthy, else the slug of the title. */
  function DefaultId(id: Js<string>, title: Js<string>, slug: string -> string): (r: string)
    ensures Truthy(id) ==> r == id.value
  {
    OrElse(id, slug(Text(title)))
  }

  /**
   * Without a truthy id the id comes from the title alone: a missing, null
   * or empty id all give the slug of the title, and a missing or null title
   * is slugged as the empty string.
   */
  lemma DefaultIdFallback(id: Js<string>, title: Js<string>, slug: string -> string)
    requires !Truthy(id)
    ensures DefaultId(id, title, slug) == DefaultId(Undefined, title, slug) == DefaultId(Defined(""), title, slug)
    ensures DefaultId(id, title, slug) == slug(Text(title))
    ensures !title.Defined? ==> DefaultId(id, title, slug) == slug("")
  {
  }

  /**
   * A page as given to `savePage`, or inside a unit given to `saveCourse`.
   * `courseId` and `unitId` are only read by `savePage`.
   */
  datatype PageInput = PageInput(
    id: Js<string>,
    title: Js<string>,
    content: Js<string>,
    pageOrder: Js<nat>,
    courseId: Js<string>,
    unitId: Js<string>)

  /** A page reference inside a `saveUnit` input. */
  datatype PageRef = PageRef(id: string)

  /** The input of `saveUnit`. */
  datatype UnitInput = UnitInput(
    id: Js<string>,
    title: Js<string>,
    courseId: string,
    unitOrder: Js<nat>,
    pages: Option<seq<PageRef>>)

  /** A unit inside a `saveCourse` input; `pages` is None when null or undefined. */
  datatype CourseUnitInput = CourseUnitInput(id: Js<string>, title: Js<string>, pages: Option<seq<PageInput>>)

  /** The input of `saveCourse`; `units` is None when null or undefined. */
  datatype CourseInput = CourseInput(
    id: Js<string>,
    title: Js<string>,
    version: Js<string>,
    subtitle: Js<string>,
    author: Js<string>,
    units: Option<seq<CourseUnitInput>>)
}

=== FILE: js.dfy ===
/**
 * The few JavaScript value semantics the resolvers depend on: the difference
 * between `undefined` and `null`, truthiness of strings for `a || b`, the
 * string conversions done by template literals and by lodash, and
 * `String.prototype.trim`.
 */
module Js {

  /** A JavaScript value of type T that may also be `undefined` or `null`. */
  datatype Js<+T> = Undefined | Null | Defined(value: T)

  /** `v !== undefined`: a `null` counts as present. */
  predicate Present<T>(v: Js<T>) {
    !v.Undefined?
  }

  /** Truthiness of a string-valued field: `undefined`, `null` and `""` are falsy. */
  predicate Truthy(v: Js<string>) {
    v.Defined? && v.value != ""
  }

  /** `a || b` on two possibly missing strings. */
  function Or(a: Js<string>, b: Js<string>): (r: Js<string>)
    ensures r == a || r == b
    ensures Truthy(r) <==> Truthy(a) || Truthy(b)
    ensures Truthy(a) ==> r == a
    ensures !Truthy(a) ==> r == b
  {
    if Truthy(a) then a else b
  }

  /** `a || d` where the default `d` is a string, so the result is always a string. */
  function OrElse(a: Js<string>, d: string): (r: string)
    ensures Truthy(a) ==> r == a.value
    ensures r != "" <==> Truthy(a) || d != ""
    ensures Or(a, Defined(d)) == Defined(r)
  {
    if Truthy(a) then a.value else d
  }

  /** lodash's `toString`, applied by `kebabCase` to its argument: missing values become "". */
  function Text(v: Js<string>): string {
    match v
    case Undefined => ""
    case Null => ""
    case Defined(s) => s
  }

  /** `${v}` in a template literal, and the key used by `obj[v]`. */
  function Render(v: Js<string>): string {
    match v
    case Undefined => "undefined"
    case Null => "null"
    case Defined(s) => s
  }

  /** The start index `splice` computes from its first argument: `undefined` and `null` become 0. */
  function SpliceStart(v: Js<nat>): nat {
    if v.Defined? then v.value else 0
  }

  /** The code points removed by `String.prototype.trim` (WhiteSpace and LineTerminator). */
  predicate IsWhitespace(c: char) {
    var n := c as int;
    n == 0x9 || n == 0xA || n == 0xB || n == 0xC || n == 0xD || n == 0x20
    || n == 0xA0 || n == 0x1680 || (0x2000 <= n <= 0x200A)
    || n == 0x2028 || n == 0x2029 || n == 0x202F || n == 0x205F
    || n == 0x3000 || n == 0xFEFF
  }

  predicate AllWhitespace(s: string) {
    forall k :: 0 <= k < |s| ==> IsWhitespace(s[k])
  }

  /** Number of whitespace characters at the front of s. */
  function LeadingWhitespace(s: string): (n: nat)
    ensures n <= |s|
    ensures AllWhitespace(s[..n])
    ensures n < |s| ==> !IsWhitespace(s[n])
  {
    if |s| == 0 || !IsWhitespace(s[0]) then 0
    else
      var n := 1 + LeadingWhitespace(s[1..]);
      assert s[..n] == [s[0]] + s[1..][..n - 1];
      n
  }

  /** Number of whitespace characters at the end of s. */
  function TrailingWhitespace(s: string): (n: nat)
    ensures n <= |s|
    ensures AllWhitespace(s[|s| - n..])
    ensures n < |s| ==> !IsWhitespace(s[|s| - n - 1])
  {
    if |s| == 0 || !IsWhitespace(s[|s| - 1]) then 0
    else
      var t := s[..|s| - 1];
      var m := TrailingWhitespace(t);
      var u := s[|s| - (m + 1)..];
      assert AllWhitespace(u) by {
        forall k | 0 <= k < |u|
          ensures IsWhitespace(u[k])
        {
          if k < m {
            assert u[k] == t[|t| - m..][k];
          }
        }
      }
      m + 1
  }

  /** `s.trim()`: s without its leading and trailing whitespace. */
  function Trim(s: string): (r: string)
    ensures LeadingWhitespace(s) + |r| <= |s|
    ensures r == s[LeadingWhitespace(s)..LeadingWhitespace(s) + |r|]
    ensures |r| > 0 ==> !IsWhitespace(r[0]) && !IsWhitespace(r[|r| - 1])
    ensures r == [] <==> AllWhitespace(s)
    ensures AllWhitespace(s[LeadingWhitespace(s) + |r|..])
  {
    var a := LeadingWhitespace(s);
    var t := s[a..];
    var r := t[..|t| - TrailingWhitespace(t)];
    assert s[a + |r|..] == t[|t| - TrailingWhitespace(t)..];
    assert a == |s| ==> AllWhitespace(s) by {
      if a == |s| { assert s[..a] == s; }
    }
    r
  }

  /** Trimming a string that has no surrounding whitespace leaves it unchanged. */
  lemma TrimNoSurroundingWhitespace(s: string)
    requires |s| > 0 ==> !IsWhitespace(s[0]) && !IsWhitespace(s[|s| - 1])
    ensures Trim(s) == s
  {
    if |s| > 0 {
      assert LeadingWhitespace(s) == 0;
      assert TrailingWhitespace(s) == 0;
    }
  }

  /** Trimming twice is the same as trimming once. */
  lemma TrimIdempotent(s: string)
    ensures Trim(Trim(s)) == Trim(s)
  {
    TrimNoSurroundingWhitespace(Trim(s));
  }
}

=== FILE: page_resolver.dfy ===
/**
 * The page resolvers (src/resolvers/page.ts): saving a page file and
 * placing its id in a unit of its course, and deleting a page.
 */
module PageResolver {
  import opened Wrappers
  import opened Js
  import opened Splice
  import opened Documents
  import opened Content

  /**
   * The arguments of `savePage`. The course and unit ids may come from the
   * parent's input, from the arguments, or from `args.input`.
   */
  datatype SavePageArgs = SavePageArgs(
    parentCourseId: Js<string>,
    parentUnitId: Js<string>,
    courseId: Js<string>,
    unitId: Js<string>,
    input: PageInput)

  /** What `savePage` returns. */
  datatype SavedPage = SavedPage(id: string, title: Js<string>, content: Js<string>)

  /** The course `savePage` works on: the first truthy source, else `args.input.courseId` as it is. */
  function TargetCourse(a: SavePageArgs): (r: Js<string>)
    ensures r in {a.parentCourseId, a.courseId, a.input.courseId}
    ensures Truthy(r) <==> Truthy(a.parentCourseId) || Truthy(a.courseId) || Truthy(a.input.courseId)
    ensures Truthy(a.parentCourseId) ==> r == a.parentCourseId
    ensures !Truthy(a.parentCourseId) && Truthy(a.courseId) ==> r == a.courseId
    ensures !Truthy(a.parentCourseId) && !Truthy(a.courseId) ==> r == a.input.courseId
  {
    Or(Or(a.parentCourseId, a.courseId), a.input.courseId)
  }

  /** The unit `savePage` inserts into, chosen the same way. */
  function TargetUnit(a: SavePageArgs): (r: Js<string>)
    ensures r in {a.parentUnitId, a.unitId, a.input.unitId}
    ensures Truthy(r) <==> Truthy(a.parentUnitId) || Truthy(a.unitId) || Truthy(a.input.unitId)
    ensures Truthy(a.parentUnitId) ==> r == a.parentUnitId
    ensures !Truthy(a.parentUnitId) && Truthy(a.unitId) ==> r == a.unitId
    ensures !Truthy(a.parentUnitId) && !Truthy(a.unitId) ==> r == a.input.unitId
  {
    Or(Or(a.parentUnitId, a.unitId), a.input.unitId)
  }

  /** A page's id: its own id when truthy, else the slug of its title. */
  function PageId(input: PageInput, slug: string -> string): string {
    DefaultId(input.id, input.title, slug)
  }

  /**
   * The `id` property of an element of a unit's page list. The elements are
   * page-id strings, and a string has no `id` property.
   */
  function IdProperty(p: string): Js<string> {
    Undefined
  }

  /** The lookup of a prior occurrence of the page: `pages.findIndex((p) => p.id === id)`. */
  function PriorIndex(pages: seq<string>, id: string): int {
    FindIndex(pages, (p: string) => IdProperty(p) == Defined(id))
  }

  /** The prior-occurrence lookup never matches, whatever the list holds. */
  lemma PriorIndexNeverMatches(pages: seq<string>, id: string)
    ensures PriorIndex(pages, id) == -1
  {
  }

  /**
   * The new page list of a unit that receives the page: a missing or empty
   * list becomes exactly [id]; otherwise id is spliced in at pageOrder and
   * every existing element is kept, in order.
   */
  function InsertPage(pages: Option<seq<string>>, id: string, order: Js<nat>): (r: seq<string>)
    ensures pages.None? || pages.value == [] ==> r == [id]
    ensures pages.Some? && pages.value != [] ==>
      var k := Min(SpliceStart(order), |pages.value|);
      && |r| == |pages.value| + 1
      && r[k] == id
      && RemoveAt(r, k) == pages.value
  {
    if pages.None? || |pages.value| == 0 then [id]
    else
      var i := PriorIndex(pages.value, id);
      var rest := if i > -1 then RemoveAt(pages.value, i) else pages.value;
      Insert(rest, SpliceStart(order), id)
  }

  /** Whether a unit is the one named by `unitId` (`unit.id === unitId`). */
  predicate Names(unitId: Js<string>, u: Unit) {
    unitId == Defined(u.id)
  }

  /**
   * `units.forEach(...)`: every unit named by unitId receives the page; the
   * other units, and the order of the units, are unchanged.
   */
  function AddPageToUnits(units: seq<Unit>, unitId: Js<string>, id: string, order: Js<nat>): (r: seq<Unit>)
    ensures |r| == |units|
    ensures forall i :: 0 <= i < |r| ==> r[i].id == units[i].id && r[i].title == units[i].title
    ensures forall i :: 0 <= i < |r| && !Names(unitId, units[i]) ==> r[i] == units[i]
    ensures forall i :: 0 <= i < |r| && Names(unitId, units[i]) ==>
      r[i].pages == Some(InsertPage(units[i].pages, id, order))
  {
    seq(|units|, i requires 0 <= i < |units| =>
      if Names(unitId, units[i]) then units[i].(pages := Some(InsertPage(units[i].pages, id, order)))
      else units[i])
  }

  /**
   * savePage. The course must exist; the page file is written under
   * `input.courseId`; then the page id is placed in the target unit and the
   * course document is written back.
   */
  function SavePage(st: Store, args: SavePageArgs, slug: string -> string): (o: Outcome<Result<SavedPage, Error>>)
    ensures var rc := ReadCourse(st, Render(TargetCourse(args)));
      rc.Failure? ==> o == Outcome(st, Failure(rc.error))
    ensures var key := Render(TargetCourse(args));
      ReadCourse(st, key) == Success(None) ==> o == Outcome(st, Failure(NotFound(key)))
    ensures var key := Render(TargetCourse(args));
      var rc := ReadCourse(st, key);
      var id := PageId(args.input, slug);
      var path := PagePath(Render(args.input.courseId), id);
      rc.Success? && rc.value.Some? ==>
        && path in o.store.files
        && o.store.files[path] == SourceFile(PageMatter(id, args.input.title), Body(args.input.content))
        && id in o.store.index
        && (id != key ==> o.store.index[id] == Entry(PAGE, path))
    ensures var rc := ReadCourse(st, Render(TargetCourse(args)));
      rc.Success? && rc.value.Some? && rc.value.value.units.None? ==> o.result == Failure(TypeError)
    ensures var key := Render(TargetCourse(args));
      var rc := ReadCourse(st, key);
      var id := PageId(args.input, slug);
      var path := PagePath(Render(args.input.courseId), id);
      rc.Success? && rc.value.Some? ==>
        && FramedBy(st, o.store, {id, key}, {path, CoursePath(key)})
        && (rc.value.value.units.None? ==> FramedBy(st, o.store, {id}, {path}))
    ensures var key := Render(TargetCourse(args));
      var rc := ReadCourse(st, key);
      var id := PageId(args.input, slug);
      rc.Success? && rc.value.Some? && rc.value.value.units.Some? ==>
        && o.result == Success(SavedPage(id, args.input.title, args.input.content))
        && ReadCourse(o.store, key) == Success(Some(rc.value.value.(units :=
             Some(AddPageToUnits(rc.value.value.units.value, TargetUnit(args), id, args.input.pageOrder)))))
  {
    var courseId := TargetCourse(args);
    var key := Render(courseId);
    match ReadCourse(st, key)
    case Failure(e) => Outcome(st, Failure(e))
    case Success(None) => Outcome(st, Failure(NotFound(key)))
    case Success(Some(course)) =>
      var id := PageId(args.input, slug);
      var written := WriteSourceFile(st, id, PAGE, PageMatter(id, args.input.title),
                                     args.input.content, args.input.courseId);
      CoursePathIsNotPagePath(key, Render(args.input.courseId), id);
      if course.units.None? then Outcome(written, Failure(TypeError))
      else
        var units := AddPageToUnits(course.units.value, TargetUnit(args), id, args.input.pageOrder);
        var saved := WriteCourse(written, key, course.(units := Some(units)));
        ReadCourseAfterWrite(written, key, course.(units := Some(units)));
        FramedByTrans(st, written, saved, {id}, {PagePath(Render(args.input.courseId), id)}, {key}, {CoursePath(key)});
        Outcome(saved, Success(SavedPage(id, args.input.title, args.input.content)))
  }

  /**
   * Saving a page into a non-empty list that already holds its id adds a
   * second copy instead of moving the first one.
   */
  lemma {:induction false} ResaveDuplicates(pages: seq<string>, id: string, order: Js<nat>)
    requires id in pages
    ensures multiset(InsertPage(Some(pages), id, order))[id] == multiset(pages)[id] + 1
    ensures multiset(InsertPage(Some(pages), id, order))[id] >= 2
  {
    PriorIndexNeverMatches(pages, id);
    assert InsertPage(Some(pages), id, order) == Insert(pages, SpliceStart(order), id);
    InsertMultiset(pages, SpliceStart(order), id);
  }

  /** A concrete instance: re-saving page "intro" at position 0 of ["intro"] gives ["intro", "intro"]. */
  lemma ResaveExample()
    ensures InsertPage(Some(["intro"]), "intro", Defined(0)) == ["intro", "intro"]
  {
    PriorIndexNeverMatches(["intro"], "intro");
  }

  /**
   * Deleting a page right after saving it into a unit: a list that did not
   * hold the page is restored exactly; a list that did keeps the same ids,
   * though the copy removed is the first one, not necessarily the new one.
   */
  lemma {:induction false} DeleteAfterSave(pages: Option<seq<string>>, id: string, order: Js<nat>)
    ensures var before := if pages.Some? then pages.value else [];
      multiset(RemoveFirst(InsertPage(pages, id, order), id)) == multiset(before)
    ensures pages.Some? && id !in pages.value ==> RemoveFirst(InsertPage(pages, id, order), id) == pages.value
  {
    if pages.Some? && pages.value != [] {
      PriorIndexNeverMatches(pages.value, id);
      assert InsertPage(pages, id, order) == Insert(pages.value, SpliceStart(order), id);
      InsertMultiset(pages.value, SpliceStart(order), id);
      if id !in pages.value {
        RemoveFirstInsert(pages.value, SpliceStart(order), id);
      }
    } else {
      assert InsertPage(pages, id, order) == [id];
      assert RemoveFirst([id], id) == [];
    }
  }

  // ----- deletePage -----

  /** Drop the first occurrence of pageId from a unit's page list, if it has one. */
  function RemovePage(pages: Option<seq<string>>, pageId: string): (r: Option<seq<string>>)
    ensures pages.None? <==> r.None?
    ensures pages.Some? ==> multiset(r.value) == multiset(pages.value) - multiset{pageId}
    ensures pages.Some? && pageId in pages.value ==> |r.value| == |pages.value| - 1
    ensures pages.Some? && pageId !in pages.value ==> r == pages
  {
    if pages.Some? then Some(RemoveFirst(pages.value, pageId)) else None
  }

  /**
   * With a unit id: only the first unit with that id loses its first
   * occurrence of the page. None when no unit has that id (the source then
   * reads `pages` of undefined and fails).
   */
  function RemoveFromNamedUnit(units: seq<Unit>, unitId: string, pageId: string): (r: Option<seq<Unit>>)
    ensures r.None? <==> forall i :: 0 <= i < |units| ==> units[i].id != unitId
    ensures r.Some? ==>
      var k := FindIndex(units, (u: Unit) => u.id == unitId);
      && 0 <= k < |units|
      && units[k].id == unitId
      && (forall i :: 0 <= i < k ==> units[i].id != unitId)
      && |r.value| == |units|
      && r.value[k] == units[k].(pages := RemovePage(units[k].pages, pageId))
      && (forall i :: 0 <= i < |units| && i != k ==> r.value[i] == units[i])
  {
    var k := FindIndex(units, (u: Unit) => u.id == unitId);
    if k == -1 then None
    else Some(units[k := units[k].(pages := RemovePage(units[k].pages, pageId))])
  }

  /** Without a unit id: every unit with a page list loses its first occurrence of the page. */
  function RemoveFromEveryUnit(units: seq<Unit>, pageId: string): (r: seq<Unit>)
    ensures |r| == |units|
    ensures forall i :: 0 <= i < |r| ==>
      r[i] == units[i].(pages := RemovePage(units[i].pages, pageId))
  {
    seq(|units|, i requires 0 <= i < |units| => units[i].(pages := RemovePage(units[i].pages, pageId)))
  }

  /**
   * deletePage. Fails (false, nothing written) when the course is missing or
   * the page id is not indexed. Otherwise the page's file is unlinked first;
   * the call still fails, without writing the course, when the course has
   * no units field or a given unit id names no unit. On success the
   * course document is written back with the page id removed.
   */
  function DeletePage(st: Store, pageId: string, courseId: string, unitId: Js<string>): (o: Outcome<bool>)
    ensures var rc := ReadCourse(st, courseId);
      !(rc.Success? && rc.value.Some? && pageId in st.index) ==> o == Outcome(st, false)
    ensures var rc := ReadCourse(st, courseId);
      o.result <==>
        && rc.Success? && rc.value.Some? && pageId in st.index
        && rc.value.value.units.Some?
        && (Truthy(unitId) ==> exists i :: 0 <= i < |rc.value.value.units.value| && rc.value.value.units.value[i].id == unitId.value)
    ensures var rc := ReadCourse(st, courseId);
      rc.Success? && rc.value.Some? && pageId in st.index ==>
        var file := st.index[pageId].filepath;
        && (file != CoursePath(courseId) ==> file !in o.store.files)
        && (forall k :: k in st.index && k != courseId ==> k in o.store.index && o.store.index[k] == st.index[k])
        && (!o.result ==> o.store == st.(files := st.files - {file}))
        && (o.result ==> FramedBy(st, o.store, {courseId}, {file, CoursePath(courseId)}))
    ensures var rc := ReadCourse(st, courseId);
      o.result && !Truthy(unitId) ==>
        ReadCourse(o.store, courseId)
          == Success(Some(rc.value.value.(units := Some(RemoveFromEveryUnit(rc.value.value.units.value, pageId)))))
    ensures var rc := ReadCourse(st, courseId);
      o.result && Truthy(unitId) ==>
        var us := RemoveFromNamedUnit(rc.value.value.units.value, unitId.value, pageId);
        us.Some? && ReadCourse(o.store, courseId) == Success(Some(rc.value.value.(units := us)))
  {
    match ReadCourse(st, courseId)
    case Failure(_) => Outcome(st, false)
    case Success(None) => Outcome(st, false)
    case Success(Some(course)) =>
      if pageId !in st.index then Outcome(st, false)
      else
        var unlinked := st.(files := st.files - {st.index[pageId].filepath});
        if course.units.None? then Outcome(unlinked, false)
        else if Truthy(unitId) then
          match RemoveFromNamedUnit(course.units.value, unitId.value, pageId)
          case None => Outcome(unlinked, false)
          case Some(units) =>
            ReadCourseAfterWrite(unlinked, courseId, course.(units := Some(units)));
            Outcome(WriteCourse(unlinked, courseId, course.(units := Some(units))), true)
        else
          var units := RemoveFromEveryUnit(course.units.value, pageId);
          ReadCourseAfterWrite(unlinked, courseId, course.(units := Some(units)));
          Outcome(WriteCourse(unlinked, courseId, course.(units := Some(units))), true)
  }

  /**
   * After a successful delete the page id keeps its index entry while its
   * file is gone, so reading the page raises instead of returning null.
   */
  lemma DeletePageLeavesDanglingEntry(st: Store, pageId: string, courseId: string, unitId: Js<string>)
    requires DeletePage(st, pageId, courseId, unitId).result
    requires pageId != courseId
    requires st.index[pageId].filepath != CoursePath(courseId)
    ensures var e := st.index[pageId];
      GetSourceFile(DeletePage(st, pageId, courseId, unitId).store, pageId, e.typename)
        == Failure(ReadFailed(e.filepath))
  {
  }

  /** Deleting without a unit id clears the page from every unit that listed it exactly once. */
  lemma DeleteEverywhereClearsSingleReferences(units: seq<Unit>, pageId: string)
    requires forall i :: 0 <= i < |units| && units[i].pages.Some? ==> multiset(units[i].pages.value)[pageId] <= 1
    ensures forall i :: 0 <= i < |units| && units[i].pages.Some? ==>
      pageId !in RemoveFromEveryUnit(units, pageId)[i].pages.value
  {
  }
}

=== FILE: splice.dfy ===
/**
 * The array operations the resolvers use to keep unit and page lists in
 * order: `findIndex`, `splice(i, 0, x)` (insert) and `splice(i, 1)`
 * (remove), as functions on sequences.
 */
module Splice {

  function Min(a: nat, b: nat): nat {
    if a <= b then a else b
  }

  /** `s.findIndex(p)`: the index of the first element satisfying p, or -1. */
  function FindIndex<T>(s: seq<T>, p: T -> bool): (r: int)
    ensures -1 <= r < |s|
    ensures 0 <= r ==> p(s[r])
    ensures forall j :: 0 <= j < |s| && (r == -1 || j < r) ==> !p(s[j])
  {
    if |s| == 0 then -1
    else if p(s[0]) then 0
    else
      var k := FindIndex(s[1..], p);
      if k == -1 then -1 else k + 1
  }

  /** `s.splice(i, 1)`: drop the element at index i. */
  function RemoveAt<T>(s: seq<T>, i: nat): (r: seq<T>)
    requires i < |s|
    ensures |r| == |s| - 1
    ensures forall j :: 0 <= j < i ==> r[j] == s[j]
    ensures forall j :: i <= j < |r| ==> r[j] == s[j + 1]
  {
    s[..i] + s[i + 1..]
  }

  /**
   * `s.splice(i, 0, x)` for a non-negative start: x lands at index
   * min(i, |s|) and removing it again gives back s.
   */
  function Insert<T>(s: seq<T>, i: nat, x: T): (r: seq<T>)
    ensures |r| == |s| + 1
    ensures r[Min(i, |s|)] == x
    ensures RemoveAt(r, Min(i, |s|)) == s
  {
    var k := Min(i, |s|);
    var r := s[..k] + [x] + s[k..];
    assert RemoveAt(r, k) == s[..k] + s[k..];
    assert s[..k] + s[k..] == s;
    r
  }

  /** Remove the first element equal to x, if there is one. */
  function RemoveFirst<T(==)>(s: seq<T>, x: T): (r: seq<T>)
    ensures x !in s ==> r == s
    ensures x in s ==> |r| == |s| - 1
    ensures multiset(r) == multiset(s) - multiset{x}
  {
    var i := FindIndex(s, y => y == x);
    if i > -1 then
      assert s == s[..i] + [s[i]] + s[i + 1..];
      RemoveAt(s, i)
    else s
  }

  /** Removing at the index where an element was inserted undoes the insertion. */
  lemma InsertRemoveAt<T>(s: seq<T>, i: nat)
    requires i < |s|
    ensures Insert(RemoveAt(s, i), i, s[i]) == s
  {
    var r := RemoveAt(s, i);
    assert Min(i, |r|) == i;
    var t := Insert(r, i, s[i]);
    assert forall j :: 0 <= j < |s| ==> t[j] == s[j] by {
      forall j | 0 <= j < |s|
        ensures t[j] == s[j]
      {
        if j < i {
          assert t[j] == RemoveAt(t, i)[j];
        } else if j > i {
          assert t[j] == RemoveAt(t, i)[j - 1];
        }
      }
    }
  }

  /** Inserting adds exactly one copy of x and keeps every other element. */
  lemma InsertMultiset<T>(s: seq<T>, i: nat, x: T)
    ensures multiset(Insert(s, i, x)) == multiset(s) + multiset{x}
  {
    var k := Min(i, |s|);
    assert s == s[..k] + s[k..];
    assert Insert(s, i, x) == s[..k] + [x] + s[k..];
  }

  /**
   * RemoveFirst removes the occurrence at the first index holding x, and
   * only that one.
   */
  lemma RemoveFirstAt<T>(s: seq<T>, x: T, i: nat)
    requires i < |s| && s[i] == x
    requires x !in s[..i]
    ensures RemoveFirst(s, x) == RemoveAt(s, i)
  {
  }

  /** No element occurs twice. */
  predicate Distinct<T(==)>(s: seq<T>) {
    forall i, j :: 0 <= i < j < |s| ==> s[i] != s[j]
  }

  /** Where every element of s lands after an insertion. */
  lemma InsertAt<T>(s: seq<T>, i: nat, x: T)
    ensures var r, k := Insert(s, i, x), Min(i, |s|);
      && (forall j :: 0 <= j < k ==> r[j] == s[j])
      && (forall j :: k < j < |r| ==> r[j] == s[j - 1])
  {
  }

  /** Inserting an element that is not yet present keeps a list free of duplicates. */
  lemma {:induction false} DistinctInsert<T>(s: seq<T>, i: nat, x: T)
    requires Distinct(s) && x !in s
    ensures Distinct(Insert(s, i, x))
  {
    var r, k := Insert(s, i, x), Min(i, |s|);
    InsertAt(s, i, x);
    forall a, b | 0 <= a < b < |r|
      ensures r[a] != r[b]
    {
      if a == k {
        assert r[b] == s[b - 1];
      } else if b == k {
        assert r[a] == s[a];
      } else if b < k {
        assert r[a] == s[a] && r[b] == s[b];
      } else if a < k {
        assert r[a] == s[a] && r[b] == s[b - 1];
      } else {
        assert r[a] == s[a - 1] && r[b] == s[b - 1];
      }
    }
  }

  /** Removing from a list without duplicates leaves no copy of the removed element. */
  lemma {:induction false} DistinctRemoveAt<T>(s: seq<T>, i: nat)
    requires i < |s| && Distinct(s)
    ensures Distinct(RemoveAt(s, i))
    ensures s[i] !in RemoveAt(s, i)
  {
    var r := RemoveAt(s, i);
    forall a, b | 0 <= a < b < |r|
      ensures r[a] != r[b]
    {
      var a', b' := if a < i then a else a + 1, if b < i then b else b + 1;
      assert r[a] == s[a'] && r[b] == s[b'];
    }
    forall j | 0 <= j < |r|
      ensures r[j] != s[i]
    {
      var j' := if j < i then j else j + 1;
      assert r[j] == s[j'];
    }
  }

  /** Removing the first copy of an element that was not there before undoes its insertion. */
  lemma {:induction false} RemoveFirstInsert<T>(s: seq<T>, i: nat, x: T)
    requires x !in s
    ensures RemoveFirst(Insert(s, i, x), x) == s
  {
    var k, r := Min(i, |s|), Insert(s, i, x);
    InsertAt(s, i, x);
    assert x !in r[..k] by {
      forall j | 0 <= j < k
        ensures r[..k][j] != x
      {
        assert r[..k][j] == s[j];
      }
    }
    RemoveFirstAt(r, x, k);
  }
}

=== FILE: unit_resolver.dfy ===
/**
 * The unit resolvers (src/resolvers/unit.ts). Units live inside their
 * course's document, so every unit operation is a read-modify-write of the
 * course's ordered unit list.
 */
module UnitResolver {
  import opened Wrappers
  import opened Js
  import opened Splice
  import opened Documents
  import opened Content

  /** The ids of a unit list, in order. */
  function Ids(units: seq<Unit>): (r: seq<string>)
    ensures |r| == |units|
    ensures forall i :: 0 <= i < |units| ==> r[i] == units[i].id
  {
    seq(|units|, i requires 0 <= i < |units| => units[i].id)
  }

  /**
   * listUnits: the unit ids of the course in order; null when the course is
   * missing or its document has no units field.
   */
  function ListUnits(st: Store, courseId: string): (r: Result<Option<seq<string>>, Error>)
    ensures var rc := ReadCourse(st, courseId);
      rc.Failure? ==> r == Failure(rc.error)
    ensures var rc := ReadCourse(st, courseId);
      r == Success(None) <==> rc == Success(None) || (rc.Success? && rc.value.Some? && rc.value.value.units.None?)
    ensures var rc := ReadCourse(st, courseId);
      r.Success? && r.value.Some? ==>
        && rc.Success? && rc.value.Some? && rc.value.value.units.Some?
        && |r.value.value| == |rc.value.value.units.value|
        && forall i :: 0 <= i < |r.value.value| ==> r.value.value[i] == rc.value.value.units.value[i].id
  {
    match ReadCourse(st, courseId)
    case Failure(e) => Failure(e)
    case Success(None) => Success(None)
    case Success(Some(course)) =>
      if course.units.Some? then Success(Some(Ids(course.units.value))) else Success(None)
  }

  /** Look up each page id, in order, as a page. */
  function ResolvePages(st: Store, ids: seq<string>): (r: seq<Result<Option<Record>, Error>>)
    ensures |r| == |ids|
    ensures forall i :: 0 <= i < |ids| ==> r[i] == GetSourceFile(st, ids[i], PAGE)
  {
    seq(|ids|, i requires 0 <= i < |ids| => GetSourceFile(st, ids[i], PAGE))
  }

  /**
   * `Unit.pages`: each stored page id, in order, resolved to its page;
   * undefined when the unit has no pages field.
   */
  function UnitPages(st: Store, u: Unit): (r: Option<seq<Result<Option<Record>, Error>>>)
    ensures r.None? <==> u.pages.None?
    ensures r.Some? ==> |r.value| == |u.pages.value|
    ensures r.Some? ==> forall i :: 0 <= i < |r.value| ==> r.value[i] == GetSourceFile(st, u.pages.value[i], PAGE)
  {
    if u.pages.Some? then Some(ResolvePages(st, u.pages.value)) else None
  }

  /** In a consistent store each page of a unit resolves without raising; ids not indexed as pages resolve to null. */
  lemma UnitPagesInConsistentStore(st: Store, u: Unit)
    requires Consistent(st)
    requires u.pages.Some?
    ensures forall i :: 0 <= i < |u.pages.value| ==> UnitPages(st, u).value[i].Success?
    ensures forall i :: 0 <= i < |u.pages.value| ==>
      (UnitPages(st, u).value[i] == Success(None) <==>
        u.pages.value[i] !in st.index || st.index[u.pages.value[i]].typename != PAGE)
  {
  }

  /** What `saveUnit` returns: the unit with its pages resolved. */
  datatype SavedUnit = SavedUnit(id: string, title: Js<string>, pages: seq<Result<Option<Record>, Error>>)

  /** The position of the first unit with the given id, or -1. */
  function UnitIndex(units: seq<Unit>, id: string): int {
    FindIndex(units, (u: Unit) => u.id == id)
  }

  /**
   * The page list of the saved unit: the input's page ids when given, else
   * the existing unit's list when the unit exists, else no pages field.
   */
  function ChosenPages(input: UnitInput, units: Option<seq<Unit>>, id: string): (r: Option<seq<string>>)
    ensures input.pages.Some? ==>
      r.Some? && |r.value| == |input.pages.value|
      && forall i :: 0 <= i < |r.value| ==> r.value[i] == input.pages.value[i].id
    ensures input.pages.None? && units.Some? && UnitIndex(units.value, id) > -1 ==>
      r == units.value[UnitIndex(units.value, id)].pages
    ensures input.pages.None? && (units.None? || UnitIndex(units.value, id) == -1) ==> r.None?
  {
    if input.pages.Some? then
      Some(seq(|input.pages.value|, i requires 0 <= i < |input.pages.value| => input.pages.value[i].id))
    else if units.Some? && UnitIndex(units.value, id) > -1 then
      units.value[UnitIndex(units.value, id)].pages
    else None
  }

  /**
   * Remove the first unit with u's id, if any, and splice u in at `order`.
   * The other units keep their relative order; the length is unchanged when
   * the unit existed and grows by one when it is new.
   */
  function PlaceUnit(units: seq<Unit>, u: Unit, order: Js<nat>): (r: seq<Unit>)
    ensures var i := UnitIndex(units, u.id);
      var rest := if i > -1 then RemoveAt(units, i) else units;
      var k := Min(SpliceStart(order), |rest|);
      && |r| == |rest| + 1
      && r[k] == u
      && RemoveAt(r, k) == rest
    ensures |r| == if UnitIndex(units, u.id) > -1 then |units| else |units| + 1
  {
    var i := UnitIndex(units, u.id);
    var rest := if i > -1 then RemoveAt(units, i) else units;
    Insert(rest, SpliceStart(order), u)
  }

  /**
   * saveUnit. Raises when the course is missing, and when its document has
   * no units field (the splice then runs on undefined); otherwise writes the
   * course back with the unit placed at `unitOrder`.
   */
  function SaveUnit(st: Store, input: UnitInput, slug: string -> string): (o: Outcome<Result<SavedUnit, Error>>)
    ensures var rc := ReadCourse(st, input.courseId);
      rc.Failure? ==> o == Outcome(st, Failure(rc.error))
    ensures ReadCourse(st, input.courseId) == Success(None) ==> o == Outcome(st, Failure(NotFound(input.courseId)))
    ensures var rc := ReadCourse(st, input.courseId);
      rc.Success? && rc.value.Some? && rc.value.value.units.None? ==> o == Outcome(st, Failure(TypeError))
    ensures var rc := ReadCourse(st, input.courseId);
      var id := DefaultId(input.id, input.title, slug);
      rc.Success? && rc.value.Some? && rc.value.value.units.Some? ==>
        var course := rc.value.value;
        var unit := Unit(id, input.title, ChosenPages(input, course.units, id));
        && o.result.Success?
        && o.result.value.id == id
        && o.result.value.title == input.title
        && ReadCourse(o.store, input.courseId)
             == Success(Some(course.(units := Some(PlaceUnit(course.units.value, unit, input.unitOrder)))))
        && FramedBy(st, o.store, {input.courseId}, {CoursePath(input.courseId)})
        && (unit.pages.None? ==> o.result.value.pages == [])
        && (unit.pages.Some? ==> o.result.value.pages == ResolvePages(o.store, unit.pages.value))
  {
    match ReadCourse(st, input.courseId)
    case Failure(e) => Outcome(st, Failure(e))
    case Success(None) => Outcome(st, Failure(NotFound(input.courseId)))
    case Success(Some(course)) =>
      var id := DefaultId(input.id, input.title, slug);
      var unit := Unit(id, input.title, ChosenPages(input, course.units, id));
      if course.units.None? then Outcome(st, Failure(TypeError))
      else
        var updated := course.(units := Some(PlaceUnit(course.units.value, unit, input.unitOrder)));
        var saved := WriteCourse(st, input.courseId, updated);
        ReadCourseAfterWrite(st, input.courseId, updated);
        var pages := if unit.pages.Some? then ResolvePages(saved, unit.pages.value) else [];
        Outcome(saved, Success(SavedUnit(id, input.title, pages)))
  }

  /** Unit ids commute with insertion. */
  lemma IdsInsert(units: seq<Unit>, i: nat, u: Unit)
    ensures Ids(Insert(units, i, u)) == Insert(Ids(units), i, u.id)
  {
    var k := Min(i, |units|);
    assert Insert(units, i, u) == units[..k] + [u] + units[k..];
    assert Insert(Ids(units), i, u.id) == Ids(units)[..k] + [u.id] + Ids(units)[k..];
  }

  /** Unit ids commute with removal. */
  lemma IdsRemoveAt(units: seq<Unit>, i: nat)
    requires i < |units|
    ensures Ids(RemoveAt(units, i)) == RemoveAt(Ids(units), i)
  {
  }

  /** The first unit with an id sits where that id first occurs in the id list. */
  lemma {:induction false} UnitIndexIsIdIndex(units: seq<Unit>, id: string)
    ensures UnitIndex(units, id) > -1 <==> id in Ids(units)
    ensures UnitIndex(units, id) > -1 ==>
      RemoveFirst(Ids(units), id) == RemoveAt(Ids(units), UnitIndex(units, id))
  {
    var i := UnitIndex(units, id);
    if i > -1 {
      assert Ids(units)[i] == id;
      assert id !in Ids(units)[..i];
      RemoveFirstAt(Ids(units), id, i);
    }
  }

  /** The unit ids after placing a unit: its id spliced into the old ids minus its first occurrence. */
  lemma {:induction false} PlaceUnitIds(units: seq<Unit>, u: Unit, order: Js<nat>)
    ensures Ids(PlaceUnit(units, u, order)) == Insert(RemoveFirst(Ids(units), u.id), SpliceStart(order), u.id)
  {
    var i := UnitIndex(units, u.id);
    var rest := if i > -1 then RemoveAt(units, i) else units;
    UnitIndexIsIdIndex(units, u.id);
    if i > -1 {
      IdsRemoveAt(units, i);
    }
    assert Ids(rest) == RemoveFirst(Ids(units), u.id);
    IdsInsert(rest, SpliceStart(order), u);
  }

  /** No two units of the list share an id. */
  predicate DistinctIds(units: seq<Unit>) {
    Distinct(Ids(units))
  }

  /** Placing a unit keeps unit ids distinct: saving a unit moves it, it never duplicates it. */
  lemma {:induction false} PlaceUnitKeepsIdsDistinct(units: seq<Unit>, u: Unit, order: Js<nat>)
    requires DistinctIds(units)
    ensures DistinctIds(PlaceUnit(units, u, order))
  {
    var ids := Ids(units);
    var i := UnitIndex(units, u.id);
    UnitIndexIsIdIndex(units, u.id);
    PlaceUnitIds(units, u, order);
    if i > -1 {
      assert ids[i] == u.id;
      DistinctRemoveAt(ids, i);
      DistinctInsert(RemoveAt(ids, i), SpliceStart(order), u.id);
    } else {
      DistinctInsert(ids, SpliceStart(order), u.id);
    }
  }

  /** Saving a unit with `unitOrder` 0 puts it first, whatever its previous position. */
  lemma PlaceUnitAtFront(units: seq<Unit>, u: Unit)
    ensures PlaceUnit(units, u, Defined(0))[0] == u
  {
  }

  /**
   * deleteUnit: removes the first unit with the id and writes the course
   * back, returning true; false, with nothing written, when the course is
   * missing, has no units field, or has no such unit.
   */
  function DeleteUnit(st: Store, unitId: string, courseId: string): (o: Outcome<bool>)
    ensures var rc := ReadCourse(st, courseId);
      o.result <==>
        && rc.Success? && rc.value.Some? && rc.value.value.units.Some?
        && unitId in Ids(rc.value.value.units.value)
    ensures !o.result ==> o.store == st
    ensures var rc := ReadCourse(st, courseId);
      o.result ==>
        var units := rc.value.value.units.value;
        var k := UnitIndex(units, unitId);
        && 0 <= k < |units|
        && units[k].id == unitId
        && unitId !in Ids(units[..k])
        && ReadCourse(o.store, courseId) == Success(Some(rc.value.value.(units := Some(RemoveAt(units, k)))))
        && FramedBy(st, o.store, {courseId}, {CoursePath(courseId)})
  {
    match ReadCourse(st, courseId)
    case Failure(_) => Outcome(st, false)
    case Success(None) => Outcome(st, false)
    case Success(Some(course)) =>
      if course.units.None? then Outcome(st, false)
      else
        var i := UnitIndex(course.units.value, unitId);
        UnitIndexIsIdIndex(course.units.value, unitId);
        if i > -1 then
          assert Ids(course.units.value[..i]) == Ids(course.units.value)[..i];
          var updated := course.(units := Some(RemoveAt(course.units.value, i)));
          ReadCourseAfterWrite(st, courseId, updated);
          Outcome(WriteCourse(st, courseId, updated), true)
        else Outcome(st, false)
  }

  /** Deleting a unit of a stored course succeeds, and listUnits then shows the old ids minus the first occurrence of the unit id. */
  lemma DeleteUnitThenList(st: Store, c: Course, unitId: string, courseId: string)
    requires HoldsCourse(st, courseId, c) && c.units.Some? && unitId in Ids(c.units.value)
    ensures DeleteUnit(st, unitId, courseId).result
    ensures ListUnits(st, courseId) == Success(Some(Ids(c.units.value)))
    ensures ListUnits(DeleteUnit(st, unitId, courseId).store, courseId)
         == Success(Some(RemoveFirst(Ids(c.units.value), unitId)))
  {
    ReadHeldCourse(st, courseId, c);
    var units := c.units.value;
    var k := UnitIndex(units, unitId);
    UnitIndexIsIdIndex(units, unitId);
    IdsRemoveAt(units, k);
  }

  /**
   * Saving a unit into a stored course that has a units field succeeds, and
   * listUnits then shows the unit's id spliced in at `unitOrder` into the
   * old ids minus their first occurrence of it.
   */
  lemma SaveUnitThenList(st: Store, c: Course, input: UnitInput, slug: string -> string)
    requires HoldsCourse(st, input.courseId, c) && c.units.Some?
    ensures SaveUnit(st, input, slug).result.Success?
    ensures var id := DefaultId(input.id, input.title, slug);
      ListUnits(SaveUnit(st, input, slug).store, input.courseId)
        == Success(Some(Insert(RemoveFirst(Ids(c.units.value), id), SpliceStart(input.unitOrder), id)))
  {
    ReadHeldCourse(st, input.courseId, c);
    var id := DefaultId(input.id, input.title, slug);
    var unit := Unit(id, input.title, ChosenPages(input, c.units, id));
    PlaceUnitIds(c.units.value, unit, input.unitOrder);
  }

  /** Deleting a unit that was just saved as a new unit restores the unit list. */
  lemma {:induction false} DeleteUndoesSaveOfNewUnit(units: seq<Unit>, u: Unit, order: Js<nat>)
    requires u.id !in Ids(units)
    ensures var r := PlaceUnit(units, u, order);
      var k := UnitIndex(r, u.id);
      0 <= k < |r| && RemoveAt(r, k) == units
  {
    var r := PlaceUnit(units, u, order);
    UnitIndexIsIdIndex(units, u.id);
    var k := Min(SpliceStart(order), |units|);
    IdsInsert(units, SpliceStart(order), u);
    RemoveFirstInsert(Ids(units), SpliceStart(order), u.id);
    UnitIndexIsIdIndex(r, u.id);
    assert Ids(r)[k] == u.id;
    assert RemoveFirst(Ids(r), u.id) == Ids(units);
    assert RemoveAt(Ids(r), UnitIndex(r, u.id)) == RemoveAt(Ids(r), k);
  }
}

=== FILE: wrappers.dfy ===
/** Failure-carrying datatypes shared by the whole model. */
module Wrappers {

  /** A value that may be missing: JavaScript's `null`/`undefined` for a result. */
  datatype Option<+T> = None | Some(value: T)

  /** The outcome of an operation that may throw. */
  datatype Result<+R, +E> = Success(value: R) | Failure(error: E)
}
